=== FILE: README.md ===
# Views Natural Sort — a Dafny model of its core

Views Natural Sort is a Drupal module. It lets a Views listing sort a text
field "naturally": the way a person would order it, ignoring leading
articles, symbols and so on. For every value of a sortable field the module
keeps an index entry. Each entry holds:

- the entity id and type;
- the field;
- the delta, which is the position of the value in a multi-valued field;
- the value after a pipeline of transformations.

The Views sort handlers then order by that stored string.

This project models the following parts of the module:

- **Transformation assembly** (`Service`, `Pipeline`). The five built-in
  transformations run in a fixed order, and only those switched on in the
  settings take part. The alter hook then receives the list. The
  transformations run one after another, each on the previous one's output.
- **Property discovery** (`Properties`, `Service`, `EntityProperty`). Both
  the service and the entity_property source plugin find the same things:
  - which string fields have a Views base table (the *supported*
    properties);
  - which of those Views declares with the `natural` sort handler (the
    *Views-supported* properties).

  The two classes differ in two places. One is how they find a field's base
  table. The other is whether a column's "real field" replaces the schema
  field. Both cache their results in method-level statics. Here those caches
  are an explicit `Statics` value that each call passes in and out. A cache
  is refilled only while it is empty.
- **Live indexing** (`Service.StoreIndexRecordsFromEntity`). An entity
  gets one index record per value of each Views-supported property it has
  set.
- **Rebuild queueing** (`Service.QueueDataForRebuild`). The queue names
  the rebuild hook returns go through these steps:
  - they are filtered for PHP truthiness;
  - they are merged without duplicates, in first-seen order;
  - they become one `rebuildIndex` batch operation per queue.
- **Index record types** (`IndexRecordTypes`): the value object pairing an
  (entity type, field) with its source plugin.
- **The Views sort handlers** (`NaturalSort`, `NaturalField`):
  - the natural-mode switch;
  - the sort options;
  - the admin summary;
  - the join onto the `views_natural_sort` table.
- **The documented example hooks** (`HookExamples`).

## Modelling conventions

- A PHP value that may be NULL or FALSE is an `Option`.
- PHP string truthiness is `Php.Truthy`: exactly `""` and `"0"` are falsy.
  `empty()`, `?:` and `array_filter()` are written in terms of it.
- Ordered PHP lists are `seq`. The transformation list and the queue list
  are ordered, and their order is observable.
- Nested property arrays keyed by name are `map`. Their iteration order is
  not observable in any result this model states.
- `array_unique` on a list is `Seqs.Unique`, which keeps first occurrences.
- Host services are plain values and functions: configuration, the plugin
  managers, the hooks, the field and entity type managers, and the Views
  data. They are the fields of `Service.Environment` and `Host.Catalog`.
- A transformation plugin is an opaque `string -> string`.
- `_views_field_get_entity_type_storage` becomes the flag
  `FieldStorage.sqlEntityStorage`.
- `src/Plugin/views/sort/Natural.php:78` lacks its semicolon. As written,
  that is a parse error, so neither `Natural.php` nor `NaturalField.php`,
  whose class extends it, can load. Every `NaturalSort` and `NaturalField`
  member models the files with that line read as `return $label;`. The
  members named `…AsWritten` model the rest of the code as written.

## Model

| member | source | states |
|---|---|---|
| Pipeline.RunAppend | views_natural_sort.api.php:86-90 | running a concatenated transformation list is running the first part, then the second on its output |
| Pipeline.RunSnoc | views_natural_sort.api.php:86-91 | a transformation appended at the end receives the string after all the others have run |
| Pipeline.RunFeedsForward | views_natural_sort.api.php:86-90 | the i-th transformation receives exactly the output of the first i |
| Pipeline.DeriveSortKey | views_natural_sort.api.php:86-90 | applying the transformations one by one in a loop yields the serial composition; with none, the raw string; otherwise the last one applied to the output of the others |
| Seqs.Filter | src/ViewsNaturalSortService.php:205 | `array_filter` keeps every element satisfying the predicate as many times as it occurs and drops every other, so it never lengthens the list; the order is kept (`Seqs.FilterIsSubsequence`) |
| Seqs.FilterIsSubsequence | src/ViewsNaturalSortService.php:205 | the elements `array_filter` keeps stay in their original order |
| Seqs.Unique | src/ViewsNaturalSortService.php:205 | `array_unique` keeps every value and removes all duplicates |
| Seqs.UniqueKeepsFirstSeenOrder | src/ViewsNaturalSortService.php:205 | the values `array_unique` keeps appear in the order of their first occurrence |
| Service.EnabledIds | src/ViewsNaturalSortService.php:56-67 | an id takes part exactly when it is one of the five built-in ids and its settings say enabled, and the order of the built-in list is kept |
| Service.DefaultTransformations | src/ViewsNaturalSortService.php:55-71 | one plugin per enabled id, in order, each created from its own id and its own settings sub-record |
| Service.AllEnabledRunsAllFive | src/ViewsNaturalSortService.php:56-70 | with every built-in transformation enabled, all five are created, in the fixed order |
| Service.GetTransformations | src/ViewsNaturalSortService.php:49-53 | the alter hooks receive the complete list of enabled built-in transformations together with the record, and what they leave is the record's list |
| Service.UnalteredTransformationsRunInOrder | src/ViewsNaturalSortService.php:49-68 | when the alter hooks return the list unchanged, a record's transformations are the enabled built-ins in order, and each, built from its own settings, receives the output of the ones before it |
| Service.CreateIndexRecord | src/ViewsNaturalSortService.php:231-236 | the record keeps the given values, and its transformations are the alter hook's result on the full enabled default list for that record |
| Host.BaseFieldTable | src/ViewsNaturalSortService.php:277-296 | a base field's table is the declared data table, or "<id>_field_data", when the type is translatable; otherwise the declared base table, or the id |
| Service.GetViewsBaseTable | src/ViewsNaturalSortService.php:244-297 | a configurable field has a table exactly when its field type is known, its storage has bundles, it has no custom storage, its entity type has SQL storage and a base table; the table is "<target type>__<field>"; a base field uses the base-field table |
| Service.ConfigFieldTableNamesTheField | src/ViewsNaturalSortService.php:272-275 | a configurable field's table name ends with a double underscore and the field's name |
| Properties.SupportedProperties | src/ViewsNaturalSortService.php:122-142 | an entity type is a key exactly when it has a string field; a property is listed exactly when it is a string field whose base table is non-empty, and it records that table and its own name as schema field |
| Properties.CachedSupported | src/ViewsNaturalSortService.php:119-145 | a non-empty cache is returned unchanged; an empty one is filled with the freshly computed properties, which are returned |
| Service.GetSupportedEntityProperties | src/ViewsNaturalSortService.php:119-145 | the service's supported properties, with the service's base-table rule and cache: on a fresh computation an entity type is a key exactly when it has a string field, and a property is listed exactly when it is a string field with a non-empty table, recorded with that table and its own name |
| Properties.SelectProperties | src/ViewsNaturalSortService.php:155-168 | a property is kept exactly when the Views check accepts it, and it records what the check returned; no entity type is left with an empty list |
| Properties.CachedViewsSupported | src/ViewsNaturalSortService.php:147-172 | a non-empty cache is returned unchanged; empty Views data gives FALSE and leaves the cache empty; otherwise the accepted properties are returned and cached |
| Properties.ViewsCacheIsSticky | src/ViewsNaturalSortService.php:148-149 | once filled, the Views-supported cache is returned whatever the catalog and the Views data later say |
| Properties.EmptyViewsResultIsRecomputed | src/ViewsNaturalSortService.php:148-149 | a lookup that found nothing leaves the cache empty, so the next lookup recomputes from the then-current Views data |
| Service.NaturalWithRealField | src/ViewsNaturalSortService.php:157-166 | a property needs a Views column; the column's real field, if any, replaces the schema field; the property is kept exactly when the resolved column's sort handler is 'natural', and it is recorded under the resolved name |
| Service.GetViewsSupportedEntityProperties | src/ViewsNaturalSortService.php:147-172 | a filled cache is returned as is; otherwise the supported lookup runs first; FALSE without Views data, leaving the cache empty; else a supported property is listed exactly when its Views column exists and the column it resolves to (the real field, or its own name) sorts naturally, recorded on its own base table under the resolved name; an entity type appears only with at least one kept property, so a lookup that keeps nothing leaves the cache empty; the result is cached |
| Service.Occurrences | src/ViewsNaturalSortService.php:181-185 | the (field, delta) pairs visited are exactly those where a Views-supported field of the entity has a value |
| Service.StoreIndexRecordsFromEntity | src/ViewsNaturalSortService.php:174-197 | exactly one record per value of every Views-supported field the entity has set; each carries the entity id and type, the field, the delta and the value as content, and the transformations for those values |
| Service.NothingIndexedWithoutSupport | src/ViewsNaturalSortService.php:180-181 | when the lookup gives FALSE or no property for the entity's type, no record is created |
| Service.MergeQueuesDeduplicatesAllRequests | src/ViewsNaturalSortService.php:203-206 | merging entry type by entry type with `array_unique(array_merge(…, array_filter(…)))` equals deduplicating all truthy requested names at once |
| Service.OperationsNameOnlyRequested | src/ViewsNaturalSortService.php:205-213 | operations built from the deduplicated truthy requests name only truthy, requested queues |
| Service.OperationsNameEveryRequest | src/ViewsNaturalSortService.php:205-213 | every requested queue gets an operation |
| Service.OperationsAreDistinct | src/ViewsNaturalSortService.php:205-213 | no queue gets two operations |
| Service.OperationsFollowFirstRequest | src/ViewsNaturalSortService.php:205-213 | the operations follow the order in which their queues were first requested |
| Service.Operations | src/ViewsNaturalSortService.php:207-213 | one rebuildIndex operation per queue, in the queues' order |
| Service.QueueDataForRebuild | src/ViewsNaturalSortService.php:199-220 | the batch has one rebuildIndex operation per distinct truthy queue name requested for the given entry types (or the hooked ones when none are given), and only those, in first-request order |
| IndexRecordTypes.New | src/IndexRecordType.php:13-17 | the constructor's entity type, field and source plugin are what the getters read back |
| IndexRecordTypes.SetEntityType | src/IndexRecordType.php:23-26 | the new entity type is read back; field and plugin are kept |
| IndexRecordTypes.SetField | src/IndexRecordType.php:32-35 | the new field is read back; entity type and plugin are kept |
| IndexRecordTypes.SetEntrySourcePlugin | src/IndexRecordType.php:41-44 | the new source plugin is read back; entity type and field are kept |
| IndexRecordTypes.SetterChainIsConstructor | src/IndexRecordType.php:13-17 | the constructor's three setter calls overwrite any earlier state completely |
| IndexRecordTypes.LastSetWins | src/IndexRecordType.php:23-44 | calling a setter twice is the same as calling it once with the later value |
| EntityProperty.GetViewsBaseTable | src/Plugin/IndexRecordSourcePlugin/EntityProperty.php:99-133 | the plugin's table is the data table when the type is translatable, else the base table, else the id, for base and configurable fields alike |
| EntityProperty.BaseTableIgnoresRevisions | src/Plugin/IndexRecordSourcePlugin/EntityProperty.php:102-125 | revision settings, revision table names and entity keys never change the plugin's table |
| EntityProperty.AgreesWithServiceOnBaseFields | src/Plugin/IndexRecordSourcePlugin/EntityProperty.php:99-133 | on base fields the plugin and the service pick the same table |
| EntityProperty.NaturalAsIs | src/Plugin/IndexRecordSourcePlugin/EntityProperty.php:83-87 | a property is kept exactly when its own Views column has the 'natural' sort handler, and it is kept unchanged |
| EntityProperty.AgreesWithServiceWithoutRealField | src/Plugin/IndexRecordSourcePlugin/EntityProperty.php:81-90 | where Views names no real field, the plugin's check and the service's agree |
| EntityProperty.GetSupportedEntityProperties | src/Plugin/IndexRecordSourcePlugin/EntityProperty.php:45-70 | the plugin's supported properties, with its cache: on a fresh computation an entity type is a key exactly when it has a string field, and a property is listed exactly when it is a string field with a non-empty table, recorded with that table and its own name |
| EntityProperty.GetViewsSupportedEntityProperties | src/Plugin/IndexRecordSourcePlugin/EntityProperty.php:72-93 | a filled cache is returned as is; otherwise the plugin's supported lookup runs first; FALSE without Views data, leaving the cache empty; else exactly the supported properties whose own column sorts naturally, unchanged; an entity type appears only with at least one kept property, so a lookup that keeps nothing leaves the cache empty; the result is cached |
| EntityProperty.EntryTypesOf | src/Plugin/IndexRecordSourcePlugin/EntityProperty.php:36-40 | one entry type per Views-supported (entity type, property), with this plugin as source |
| EntityProperty.GetEntryTypesAsWritten | src/Plugin/IndexRecordSourcePlugin/EntityProperty.php:33-43 | as written, assuming the field and entity type managers are assigned: the static `$types` is returned and never filled, so from the empty static the result is empty and only the property caches change; a non-empty static would be returned as it is |
| EntityProperty.GetEntryTypesAsWrittenStaysEmpty | src/Plugin/IndexRecordSourcePlugin/EntityProperty.php:34-42 | as written, from the empty static, the first call and every later call return no entry type |
| EntityProperty.GetEntryTypes | src/Plugin/IndexRecordSourcePlugin/EntityProperty.php:33-43 | intended: a non-empty cache is returned; otherwise exactly one entry type per Views-supported property, which is cached |
| EntityProperty.GetEntryTypesLosesEveryType | src/Plugin/IndexRecordSourcePlugin/EntityProperty.php:38-42 | with an empty type cache, the written code loses exactly the entry types of the Views-supported properties, and leaves the property caches as the intended code does |
| NaturalSort.SetNaturalSort | src/Plugin/views/sort/Natural.php:87-89 | the flag becomes the given value; the order option is kept |
| NaturalSort.LastSetNaturalSortWins | src/Plugin/views/sort/Natural.php:83-89 | `isNaturalSort` returns the value last given to `setNaturalSort` |
| NaturalSort.Init | src/Plugin/views/sort/Natural.php:25-28 | after init, natural mode is on exactly when the order option starts with 'N' |
| NaturalSort.Query | src/Plugin/views/sort/Natural.php:30-57 | the parent sort's query runs exactly outside natural mode; in natural mode nothing is added |
| NaturalSort.QueryAfterInit | src/Plugin/views/sort/Natural.php:25-36 | NASC and NDESC add no ordering, ASC and DESC defer to the parent sort, and in general the parent runs exactly for orders not starting with 'N' |
| NaturalSort.SortOptionsAsWritten | src/Plugin/views/sort/Natural.php:59-63 | as written, with line 78 read as `return $label;`: the options are built but not returned, so the caller receives NULL |
| NaturalSort.SortOptions | src/Plugin/views/sort/Natural.php:59-63 | intended: the parent's options plus NASC and NDESC with their labels, the parent's other labels kept |
| NaturalSort.AddedOptionsAreNatural | src/Plugin/views/sort/Natural.php:27 | each option the handler adds switches natural mode on when chosen |
| NaturalSort.SortOptionsAsWrittenOffersNothing | src/Plugin/views/sort/Natural.php:59-63 | the written version offers no option at all, where the intended one offers NASC and NDESC |
| NaturalSort.AdminSummaryAsWritten | src/Plugin/views/sort/Natural.php:68-81 | as written, with line 78 read as `return $label;`: both NASC and NDESC read 'natural asc'; every other order reads the parent's label |
| NaturalSort.AdminSummaryAsWrittenHidesDirection | src/Plugin/views/sort/Natural.php:71-76 | the written summary, with line 78 read as `return $label;`, cannot tell a descending natural sort from an ascending one |
| NaturalSort.AdminSummary | src/Plugin/views/sort/Natural.php:68-81 | intended: NASC reads 'natural asc', NDESC reads 'natural desc', others the parent's label |
| NaturalSort.AdminSummaryTellsDirections | src/Plugin/views/sort/Natural.php:71-76 | the intended summary tells the directions apart and differs from the written one only on NDESC |
| NaturalField.StripValueSuffix | src/Plugin/views/sort/NaturalField.php:37 | `preg_replace('/_value$/', '')` removes one trailing "_value", also one just before a final newline, and changes nothing else |
| NaturalField.StripUndoesValueSuffix | src/Plugin/views/sort/NaturalField.php:37 | stripping undoes appending "_value" |
| NaturalField.StripRemovesOneSuffix | src/Plugin/views/sort/NaturalField.php:37 | only one "_value" is removed |
| NaturalField.NaturalSortJoin | src/Plugin/views/sort/NaturalField.php:16-43 | the join is views_natural_sort.eid = <alias>.entity_id, with exactly three extra conditions in this order: delta equal to the literal string "<alias>.delta", entity_type equal to the left table's Views entity type (NULL when Views lacks it), and field equal to the handler's field without "_value" |
| HookExamples.ExampleRebuildData | views_natural_sort.api.php:44-63 | entries only for the entry type the example entry-type hook declares: nothing for any entry type but (user, book_favorites); for that one, one entry per user row with its uid, delta 0 and its book_favorites value |
| HookExamples.RowsToEntries | views_natural_sort.api.php:51-62 | one entry per row, in row order |
| HookExamples.RemoveA | views_natural_sort.api.php:105-107 | `str_replace('a', '')` leaves no 'a', never lengthens, and keeps every other character's count |
| HookExamples.RemoveAOfConcat | views_natural_sort.api.php:105-107 | removing 'a' works piecewise, so the order of the other characters is kept |
| HookExamples.RemoveAKeepsStringsWithoutA | views_natural_sort.api.php:105-107 | a string without 'a' is unchanged |
| HookExamples.RemoveAIsIdempotent | views_natural_sort.api.php:105-107 | applying the transformation twice equals applying it once |
| HookExamples.ExampleTransformationsAlter | views_natural_sort.api.php:81-96 | the example alter hook keeps the list and appends the example transformation |
| HookExamples.ExampleAlterRunsLast | views_natural_sort.api.php:86-91 | the appended transformation receives the string after every other transformation has run |
| HookExamples.CreatedRecordRunsExampleLast | views_natural_sort.api.php:86-91 | with the example alter hook installed, a record's transformations produce the enabled built-ins' output with every 'a' removed |

## Left out

- Saving and removing index records is not modelled. `IndexRecord::save`
  and the database upsert are not part of this model.
  `storeIndexRecordsFromEntity` is modelled up to the records it would save,
  keyed by (field, delta).
- The concrete transformation plugins are not modelled. They are opaque
  string functions here. Their code is not part of this model.
- `rebuildIndex` is not modelled: draining a queue and re-saving its
  entries.
- `finishRebuild`, the batch title and `batch_set` itself are not modelled.
  They are messages and host I/O. `queueDataForRebuild` is modelled up to
  the list of operations.
- The plugin managers and the index record source plugin discovery are not
  modelled. They are Drupal wiring.
- Service.QueueDataForRebuild: the service invokes the hook
  `views_natural_sort_queue_rebuild_data`, which must return queue names.
  The documented hook is `views_natural_sort_get_rebuild_data`, which
  returns index entries. The model follows the code and keeps the two
  separate. Queue names are modelled as strings only, so a falsy non-string
  element such as NULL or FALSE is not modelled.
- The service constructor and the plugin's `create`/constructor are not
  modelled. The entity_property plugin never assigns the field and
  entity-type managers that it uses. The model passes them in as the
  `Catalog`.
- The code commented out in `Natural::query` is not modelled, since it never
  runs. The same holds for the logged SQL after the classes.
- Exceptions from unknown entity types are not modelled. A field item
  without a `'value'` key is not modelled either.
- The collision between Views' `'table'` key and a field named `table` is
  not modelled. The model's `ViewsTable` keeps the table's entity type apart
  from its fields.
- The iteration order of nested PHP property arrays is not modelled. Results
  are stated as maps and sets.
- NaturalField.NaturalSortJoin: for a field name ending in "_value" followed
  by a newline, the join's contract leaves the field condition to
  `StripValueSuffix`, whose contract states that case.
- The join plugin instance that `naturalSortJoin` creates from its
  configuration is not modelled. The model returns the configuration.
- Service.CreateIndexRecord: how the record later applies its
  transformations belongs to `IndexRecord`, which is not part of this model.
  `Pipeline` states the serial application that the hook documentation
  promises.

## Findings

| source | as written | input that shows it | evidently intended | confidence | as-written member | corrected member |
|---|---|---|---|---|---|---|
| src/Plugin/IndexRecordSourcePlugin/EntityProperty.php:33-43 | assuming the field and entity type managers are assigned (as written, EntityProperty.php:48 first calls `getFieldMap()` on NULL): the loop collects the types into `$entry_types` but returns the static `$types`, which is never filled, so the result is always empty | with the managers assigned, a first call where Views declares one supported string property with the 'natural' sort handler | return and cache one entry type per Views-supported property | not executed | EntityProperty.GetEntryTypesAsWritten | EntityProperty.GetEntryTypes |
| src/Plugin/views/sort/Natural.php:59-63 | `sortOptions` adds NASC and NDESC to a local array and ends without `return`, so the caller gets NULL | any parent option list | return the parent's options plus NASC and NDESC | not executed | NaturalSort.SortOptionsAsWritten | NaturalSort.SortOptions |
| src/Plugin/views/sort/Natural.php:74-75 | the NDESC case returns 'natural asc' | order option "NDESC" | return 'natural desc' | not executed | NaturalSort.AdminSummaryAsWritten | NaturalSort.AdminSummary |

=== FILE: entity_property.dfy ===
/**
 The "entity_property" index record source plugin: the same property
 discovery as the service, but every field's base table is the entity
 type's data or base table, and a column is kept only when its own sort
 handler is 'natural' (no "real field" rewrite).

 The class never assigns the entity field and entity type managers it
 uses; here they are the `Catalog` argument.
 */
module EntityProperty {
  import opened Php
  import opened Host
  import opened Properties
  import opened IndexRecordTypes
  import Service

  /** The plugin's own id, as its annotation declares. */
  const Plugin := SourcePlugin("entity_property")

  /**
   `getViewsBaseTable`: the entity type's data table when it is
   translatable, else its base table, else its id, whatever kind of field
   it is given. The source also derives the revision table, the revision
   data table and the id and revision keys, but none of them reaches the
   result (see `BaseTableIgnoresRevisions`), so they are not computed here.
   */
  function GetViewsBaseTable(cat: Catalog, fd: FieldDefinition): (table: string)
    ensures table == BaseFieldTable(cat.entityType(fd.targetEntityTypeId))
  {
    var et := cat.entityType(fd.targetEntityTypeId);
    var baseTable := OrElse(et.baseTable, et.id);
    var dataTable := if et.translatable then OrElse(et.dataTable, et.id + "_field_data") else "";
    if Truthy(dataTable) then dataTable else baseTable
  }

  /** Revision settings and entity keys never change the base table. */
  lemma BaseTableIgnoresRevisions(cat: Catalog, fd: FieldDefinition, revisionable: bool,
                                  revisionTable: string, revisionDataTable: string, keys: map<string, string>)
    ensures var et := cat.entityType(fd.targetEntityTypeId);
      var et' := et.(revisionable := revisionable, revisionTable := revisionTable,
                     revisionDataTable := revisionDataTable, keys := keys);
      var cat' := cat.(entityType := (id: string) => if id == fd.targetEntityTypeId then et' else cat.entityType(id));
      GetViewsBaseTable(cat', fd) == GetViewsBaseTable(cat, fd)
  {
  }

  /** On a base field the plugin and the service pick the same table. */
  lemma AgreesWithServiceOnBaseFields(cat: Catalog, fd: FieldDefinition)
    requires fd.BaseField?
    ensures Service.GetViewsBaseTable(cat, fd) == Some(GetViewsBaseTable(cat, fd))
  {
  }

  function TableOf(cat: Catalog, fd: FieldDefinition): Option<string> {
    Some(GetViewsBaseTable(cat, fd))
  }

  /** The plugin's Views check: keep the entry unchanged when its own column sorts naturally. */
  function NaturalAsIs(views: ViewsData, info: SchemaInfo): (r: Option<SchemaInfo>)
    ensures r.Some? <==> IsNaturalColumn(views, info.baseTable, info.schemaField)
    ensures r.Some? ==> r.value == info
  {
    if IsNaturalColumn(views, info.baseTable, info.schemaField) then Some(info) else None
  }

  /** Where Views declares no real field, the service's check and the plugin's agree. */
  lemma AgreesWithServiceWithoutRealField(views: ViewsData, info: SchemaInfo)
    requires Column(views, info.baseTable, info.schemaField).Some? ==>
      Column(views, info.baseTable, info.schemaField).value.realField.None?
    ensures Service.NaturalWithRealField(views, info) == NaturalAsIs(views, info)
  {
  }

  /** The plugin's statics: its two property caches and its entry type cache. */
  datatype PluginStatics = PluginStatics(properties: Statics, types: set<IndexRecordType>)

  /** `getSupportedEntityProperties` with its static cache. */
  function GetSupportedEntityProperties(cat: Catalog, st: Statics): (r: (PropertyMap, Statics))
    ensures st.supported != map[] ==> r.0 == st.supported
    ensures st.supported == map[] ==>
      forall e, f :: e in r.0 && f in r.0[e] ==>
        && IsStringField(cat, e, f)
        && HasTable(FieldTable(cat, TableOf, e, f))
        && r.0[e][f] == SchemaInfo(FieldTable(cat, TableOf, e, f).value, f)
    ensures st.supported == map[] ==>
      forall e, f :: IsStringField(cat, e, f) && HasTable(FieldTable(cat, TableOf, e, f)) ==> e in r.0 && f in r.0[e]
    ensures st.supported == map[] ==>
      forall e :: e in r.0 <==> e in cat.fieldMap && HasStringField(cat, e)
    ensures r.1.supported == r.0 && r.1.viewsSupported == st.viewsSupported
  {
    var r := CachedSupported(cat, TableOf, st);
    assert st.supported == map[] ==> r.0 == SupportedProperties(cat, TableOf);
    r
  }

  /**
   `getViewsSupportedEntityProperties` with its static cache: FALSE on empty
   Views data, otherwise exactly the supported entries, unchanged, whose
   column sorts naturally.
   */
  function GetViewsSupportedEntityProperties(cat: Catalog, views: ViewsData, st: Statics): (r: (ViewsSupported, Statics))
    ensures st.viewsSupported != map[] ==> r == (Supported(st.viewsSupported), st)
    ensures st.viewsSupported == map[] ==> r.1.supported == GetSupportedEntityProperties(cat, st).0
    ensures st.viewsSupported == map[] && views == map[] ==> r.0 == NoViewsData && r.1.viewsSupported == map[]
    ensures st.viewsSupported == map[] && views != map[] ==>
      && r.0.Supported?
      && r.1.viewsSupported == r.0.properties
      && (forall e, p :: (e in r.0.properties && p in r.0.properties[e]) <==>
            (e in r.1.supported && p in r.1.supported[e] &&
             IsNaturalColumn(views, r.1.supported[e][p].baseTable, r.1.supported[e][p].schemaField)))
      && (forall e, p :: e in r.0.properties && p in r.0.properties[e] ==>
            r.0.properties[e][p] == r.1.supported[e][p])
      && (forall e :: e in r.0.properties ==> r.0.properties[e] != map[])
  {
    CachedViewsSupported(cat, TableOf, views, NaturalAsIs, st)
  }

  /** The entry types for a Views-supported lookup: one per (entity type, property). */
  function EntryTypesOf(vs: ViewsSupported): (types: set<IndexRecordType>)
    ensures forall t :: t in types <==>
      vs.Supported? && t.entityType in vs.properties && t.field in vs.properties[t.entityType] && t.entrySourcePlugin == Plugin
  {
    if vs.NoViewsData? then {}
    else
      var types := set e, p | e in vs.properties && p in vs.properties[e] :: New(e, p, Plugin);
      assert forall t: IndexRecordType :: t == New(t.entityType, t.field, t.entrySourcePlugin);
      types
  }

  /**
   `getEntryTypes` as written, assuming the field and entity type managers
   are assigned (as written, the property lookup first calls `getFieldMap()`
   on the never-assigned field manager). While the static `$types` is
   empty, the loop collects the types into a local `$entry_types` that is
   then dropped, and the function returns `$types` unchanged. Nothing ever
   fills `$types`, so starting from the empty static the result is always
   empty and the only effect is on the property caches. The dropped
   collection is `EntryTypesOf` of the lookup, which
   `GetEntryTypesLosesEveryType` relates to this result.
   */
  function GetEntryTypesAsWritten(cat: Catalog, views: ViewsData, st: PluginStatics): (r: (set<IndexRecordType>, PluginStatics))
    ensures st.types == {} ==> r.0 == {}
    ensures st.types == {} ==> r.1 == PluginStatics(GetViewsSupportedEntityProperties(cat, views, st.properties).1, {})
    ensures st.types != {} ==> r == (st.types, st)
    ensures r.1.types == st.types
  {
    if st.types == {} then
      var properties := GetViewsSupportedEntityProperties(cat, views, st.properties).1;
      (st.types, PluginStatics(properties, st.types))
    else
      (st.types, st)
  }

  /** Starting from the empty static, any number of calls as written return nothing. */
  lemma GetEntryTypesAsWrittenStaysEmpty(cat: Catalog, views: ViewsData, views': ViewsData, st: PluginStatics)
    requires st.types == {}
    ensures var (first, st1) := GetEntryTypesAsWritten(cat, views, st);
      first == {} && GetEntryTypesAsWritten(cat, views', st1).0 == {}
  {
  }

  /**
   `getEntryTypes` as evidently intended: the collected types are cached in
   `$types` and returned, one per Views-supported (entity type, property).
   */
  function GetEntryTypes(cat: Catalog, views: ViewsData, st: PluginStatics): (r: (set<IndexRecordType>, PluginStatics))
    ensures st.types != {} ==> r == (st.types, st)
    ensures st.types == {} ==>
      var vs := GetViewsSupportedEntityProperties(cat, views, st.properties).0;
      forall t :: t in r.0 <==>
        vs.Supported? && t.entityType in vs.properties && t.field in vs.properties[t.entityType] && t.entrySourcePlugin == Plugin
    ensures r.1.types == r.0
  {
    if st.types != {} then (st.types, st)
    else
      var (vs, properties) := GetViewsSupportedEntityProperties(cat, views, st.properties);
      var types := EntryTypesOf(vs);
      (types, PluginStatics(properties, types))
  }

  /**
   On a call with an empty type cache, the code as written loses exactly the
   entry types the intended code returns, while both leave the property
   caches in the same state.
   */
  lemma GetEntryTypesLosesEveryType(cat: Catalog, views: ViewsData, st: PluginStatics)
    requires st.types == {}
    ensures GetEntryTypes(cat, views, st).0 - GetEntryTypesAsWritten(cat, views, st).0
      == EntryTypesOf(GetViewsSupportedEntityProperties(cat, views, st.properties).0)
    ensures GetEntryTypesAsWritten(cat, views, st).1.properties == GetEntryTypes(cat, views, st).1.properties
  {
  }
}

=== FILE: hook_examples.dfy ===
/**
 The example hook implementations documented with the module's hooks:
 an entry type provider, a rebuild-data provider for the 'book_favorites'
 field of users, a transformations alter hook that appends a transformation,
 and that transformation, which deletes every 'a'.

 The service invokes 'views_natural_sort_queue_rebuild_data' (and expects
 queue names back), while the documented hook is
 'views_natural_sort_get_rebuild_data' (which returns index entries); the
 two are modelled separately for that reason.
 */
module HookExamples {
  import opened Pipeline
  import opened Records
  import Service

  /** `hook_views_natural_sort_get_entry_types`: the one (user, book_favorites) entry type. */
  const ExampleEntryTypes: seq<EntryType> := [EntryType("user", "book_favorites")]

  /** A row of the user table, as the example's query selects it. */
  datatype UserRow = UserRow(uid: string, bookFavorites: string)

  /** One index entry per row: the user's id, field 'book_favorites', delta 0, the row's value as content. */
  function RowsToEntries(rows: seq<UserRow>): (entries: seq<RecordValues>)
    ensures |entries| == |rows|
    ensures forall i :: 0 <= i < |rows| ==>
      entries[i] == RecordValues(rows[i].uid, "user", "book_favorites", 0, rows[i].bookFavorites)
    decreases |rows|
  {
    if |rows| == 0 then []
    else [RecordValues(rows[0].uid, "user", "book_favorites", 0, rows[0].bookFavorites)] + RowsToEntries(rows[1..])
  }

  /**
   `hook_views_natural_sort_get_rebuild_data`: nothing for any entry type
   other than (user, book_favorites); for that one, an entry per user row
   (the rows are the result of the example's database query).
   */
  function ExampleRebuildData(entryType: EntryType, rows: seq<UserRow>): (entries: seq<RecordValues>)
    ensures entries != [] ==> entryType in ExampleEntryTypes
    ensures entryType != EntryType("user", "book_favorites") ==> entries == []
    ensures entryType == EntryType("user", "book_favorites") ==>
      |entries| == |rows| &&
      forall i :: 0 <= i < |rows| ==>
        entries[i] == RecordValues(rows[i].uid, "user", "book_favorites", 0, rows[i].bookFavorites)
  {
    if entryType.entityType != "user" || entryType.field != "book_favorites" then []
    else RowsToEntries(rows)
  }

  /** `_my_special_transformation_function`: `str_replace('a', '', $string)`. */
  function RemoveA(s: string): (r: string)
    ensures 'a' !in r
    ensures |r| <= |s|
    ensures forall c :: c != 'a' ==> multiset(r)[c] == multiset(s)[c]
    decreases |s|
  {
    if |s| == 0 then ""
    else
      assert s == [s[0]] + s[1..];
      (if s[0] == 'a' then "" else [s[0]]) + RemoveA(s[1..])
  }

  /** Removing 'a' from a concatenation removes it from each part, so order is kept. */
  lemma {:induction false} RemoveAOfConcat(s: string, t: string)
    ensures RemoveA(s + t) == RemoveA(s) + RemoveA(t)
    decreases |s|
  {
    if |s| > 0 {
      assert (s + t)[0] == s[0];
      assert (s + t)[1..] == s[1..] + t;
      RemoveAOfConcat(s[1..], t);
    } else {
      assert s + t == t;
    }
  }

  /** A string with no 'a' is left as it is. */
  lemma {:induction false} RemoveAKeepsStringsWithoutA(s: string)
    requires 'a' !in s
    ensures RemoveA(s) == s
    decreases |s|
  {
    if |s| > 0 {
      assert s[0] != 'a';
      assert 'a' !in s[1..];
      RemoveAKeepsStringsWithoutA(s[1..]);
      assert [s[0]] + s[1..] == s;
    }
  }

  /** Applying the example transformation twice is the same as applying it once. */
  lemma RemoveAIsIdempotent(s: string)
    ensures RemoveA(RemoveA(s)) == RemoveA(s)
  {
    RemoveAKeepsStringsWithoutA(RemoveA(s));
  }

  /** `hook_views_natural_sort_transformations_alter`: append the example transformation. */
  function ExampleTransformationsAlter(ts: seq<Transformation>, record: RecordValues): (r: seq<Transformation>)
    ensures |r| == |ts| + 1 && r[..|ts|] == ts && r[|ts|] == RemoveA
  {
    ts + [RemoveA]
  }

  /** The appended transformation receives the string after every earlier one has run. */
  lemma ExampleAlterRunsLast(ts: seq<Transformation>, record: RecordValues, s: string)
    ensures Run(ExampleTransformationsAlter(ts, record), s) == RemoveA(Run(ts, s))
  {
    RunSnoc(ts, RemoveA, s);
  }

  /**
   With the example alter hook installed, a record's sort string is its
   content run through the enabled built-in transformations, then stripped
   of every 'a'.
   */
  lemma CreatedRecordRunsExampleLast(env: Service.Environment, values: RecordValues)
    requires forall ts, v :: env.alterTransformations(ts, v) == ExampleTransformationsAlter(ts, v)
    ensures var r := Service.CreateIndexRecord(env, values);
      Run(r.transformations, values.content) == RemoveA(Run(Service.DefaultTransformations(env), values.content))
  {
    ExampleAlterRunsLast(Service.DefaultTransformations(env), values, values.content);
  }
}

=== FILE: host.dfy ===
/**
 What the service reads from the host system, as plain values: the entity
 field map and field definitions, entity type definitions, the field type
 plugins available, the Views data, and entities with their field values.
 */
module Host {
  import opened Php

  /** One entry of the entity field manager's field map. */
  datatype FieldInfo = FieldInfo(fieldType: string, bundles: seq<string>)

  /**
   The storage definition of a configurable field. `sqlEntityStorage` stands
   for what Views' `_views_field_get_entity_type_storage` reports: whether the
   storage's entity type is kept in SQL storage.
   */
  datatype FieldStorage = FieldStorage(
    name: string,
    targetEntityTypeId: string,
    fieldType: string,
    bundles: seq<string>,
    customStorage: bool,
    sqlEntityStorage: bool)

  /** A field definition: a base field, or a configurable field with its storage. */
  datatype FieldDefinition =
    | BaseField(targetEntityTypeId: string)
    | ConfigField(targetEntityTypeId: string, storage: FieldStorage)

  /** An entity type definition; an absent table name is "". */
  datatype EntityTypeDef = EntityTypeDef(
    id: string,
    baseTable: string,
    dataTable: string,
    revisionTable: string,
    revisionDataTable: string,
    revisionable: bool,
    translatable: bool,
    keys: map<string, string>)

  /**
   The host's schema catalog: the field map (entity type -> field -> info),
   field definitions per (entity type, bundle, field), entity type
   definitions per id, and the set of field types that have a plugin.
   */
  datatype Catalog = Catalog(
    fieldMap: map<string, map<string, FieldInfo>>,
    fieldDefinition: (string, string, string) -> FieldDefinition,
    entityType: string -> EntityTypeDef,
    fieldTypes: set<string>)

  /** A Views column: its optional "real field" and its optional sort handler id. */
  datatype ViewsField = ViewsField(realField: Option<string>, sortId: Option<string>)

  /** A Views table: the entity type it belongs to, and its columns. */
  datatype ViewsTable = ViewsTable(entityType: Option<string>, fields: map<string, ViewsField>)

  type ViewsData = map<string, ViewsTable>

  /** One value of a field; `value` is the item's main property. */
  datatype FieldItem = FieldItem(value: string)

  /** An entity: its type, its id and the values of the fields it has set. */
  datatype Entity = Entity(entityTypeId: string, id: string, fields: map<string, seq<FieldItem>>)

  predicate IsStringType(t: string) {
    t == "string" || t == "string_long"
  }

  /** PHP `reset()` on the bundle list: its first element ("" for none). */
  function FirstBundle(bundles: seq<string>): string {
    if |bundles| > 0 then bundles[0] else ""
  }

  /** The Views column `field` of table `table`, if Views declares it. */
  function Column(views: ViewsData, table: string, field: string): Option<ViewsField> {
    if table in views && field in views[table].fields then Some(views[table].fields[field]) else None
  }

  /** Views declares `field` of `table` with the sort handler id "natural". */
  predicate IsNaturalColumn(views: ViewsData, table: string, field: string) {
    Column(views, table, field).Some? && Column(views, table, field).value.sortId == Some("natural")
  }

  /**
   The Views base table of a base field of entity type `et`: the data table
   (declared, or the id followed by "_field_data") when the type is
   translatable, otherwise the base table, or the id when there is none.
   */
  function BaseFieldTable(et: EntityTypeDef): (table: string)
    ensures et.translatable && Truthy(et.dataTable) ==> table == et.dataTable
    ensures et.translatable && !Truthy(et.dataTable) ==> table == et.id + "_field_data"
    ensures !et.translatable && Truthy(et.baseTable) ==> table == et.baseTable
    ensures !et.translatable && !Truthy(et.baseTable) ==> table == et.id
  {
    var baseTable := OrElse(et.baseTable, et.id);
    var dataTable := if et.translatable then OrElse(et.dataTable, et.id + "_field_data") else "";
    if Truthy(dataTable) then dataTable else baseTable
  }
}

=== FILE: index_record_type.dfy ===
/**
 IndexRecordType: an (entity type, field) pair together with the source
 plugin that can produce index records for it. The PHP object's fluent
 setters become functions returning the updated value.
 */
module IndexRecordTypes {

  /**
   An index record source plugin, identified by its plugin id. Only such
   plugins can be stored as a type's source, as the setter's type demands.
   */
  datatype SourcePlugin = SourcePlugin(pluginId: string)

  datatype IndexRecordType = IndexRecordType(entityType: string, field: string, entrySourcePlugin: SourcePlugin)

  /** The constructor: stores the entity type, the field and the source plugin. */
  function New(entityType: string, field: string, plugin: SourcePlugin): (t: IndexRecordType)
    ensures GetEntityType(t) == entityType
    ensures GetField(t) == field
    ensures GetEntrySourcePlugin(t) == plugin
  {
    IndexRecordType(entityType, field, plugin)
  }

  function GetEntityType(t: IndexRecordType): string {
    t.entityType
  }

  function GetField(t: IndexRecordType): string {
    t.field
  }

  function GetEntrySourcePlugin(t: IndexRecordType): SourcePlugin {
    t.entrySourcePlugin
  }

  /** `setEntityType`: the new entity type is read back; field and plugin are kept. */
  function SetEntityType(t: IndexRecordType, entityType: string): (r: IndexRecordType)
    ensures GetEntityType(r) == entityType
    ensures GetField(r) == GetField(t) && GetEntrySourcePlugin(r) == GetEntrySourcePlugin(t)
  {
    t.(entityType := entityType)
  }

  /** `setField`: the new field is read back; entity type and plugin are kept. */
  function SetField(t: IndexRecordType, field: string): (r: IndexRecordType)
    ensures GetField(r) == field
    ensures GetEntityType(r) == GetEntityType(t) && GetEntrySourcePlugin(r) == GetEntrySourcePlugin(t)
  {
    t.(field := field)
  }

  /** `setEntrySourcePlugin`: the new plugin is read back; entity type and field are kept. */
  function SetEntrySourcePlugin(t: IndexRecordType, plugin: SourcePlugin): (r: IndexRecordType)
    ensures GetEntrySourcePlugin(r) == plugin
    ensures GetEntityType(r) == GetEntityType(t) && GetField(r) == GetField(t)
  {
    t.(entrySourcePlugin := plugin)
  }

  /**
   The constructor's chain of setters overwrites every part, whatever the
   starting value: chaining them gives exactly the constructed value.
   */
  lemma SetterChainIsConstructor(t: IndexRecordType, entityType: string, field: string, plugin: SourcePlugin)
    ensures SetEntrySourcePlugin(SetField(SetEntityType(t, entityType), field), plugin) == New(entityType, field, plugin)
  {
  }

  /** A later call of the same setter wins: each getter returns the last value set. */
  lemma LastSetWins(t: IndexRecordType, a: string, b: string, p: SourcePlugin, q: SourcePlugin)
    ensures SetEntityType(SetEntityType(t, a), b) == SetEntityType(t, b)
    ensures SetField(SetField(t, a), b) == SetField(t, b)
    ensures SetEntrySourcePlugin(SetEntrySourcePlugin(t, p), q) == SetEntrySourcePlugin(t, q)
  {
  }
}

=== FILE: natural_field.dfy ===
/**
 The "natural_field" sort handler's join onto the views_natural_sort table,
 as `naturalSortJoin` configures it.
 */
module NaturalField {
  import opened Php
  import opened Host

  /** One extra join condition: a column of views_natural_sort compared with a constant value. */
  datatype JoinCondition = JoinCondition(field: string, value: Option<string>)

  /** The configuration handed to Views' 'standard' join plugin. */
  datatype JoinConfiguration = JoinConfiguration(
    table: string,
    field: string,
    leftField: string,
    leftTable: string,
    extra: seq<JoinCondition>)

  /** What the handler reads: its table alias, its field, and the left table of its existing join. */
  datatype NaturalFieldHandler = NaturalFieldHandler(tableAlias: string, field: string, joinLeftTable: string)

  /**
   `preg_replace('/_value$/', '', $name)`: drop one "_value" at the end.
   `$` also matches just before a final newline, so "x_value\n" becomes "x\n".
   */
  function StripValueSuffix(name: string): (r: string)
    ensures EndsWith(name, "_value") ==> r + "_value" == name
    ensures EndsWith(name, "_value\n") ==>
      |r| == |name| - 6 && r[..|r| - 1] + "_value\n" == name && r[|r| - 1] == '\n'
    ensures !EndsWith(name, "_value") && !EndsWith(name, "_value\n") ==> r == name
  {
    if EndsWith(name, "_value") then name[..|name| - 6]
    else if EndsWith(name, "_value\n") then name[..|name| - 7] + "\n"
    else name
  }

  /** Appending "_value" and stripping it gives the name back. */
  lemma StripUndoesValueSuffix(name: string)
    ensures StripValueSuffix(name + "_value") == name
  {
    assert EndsWith(name + "_value", "_value");
    assert (name + "_value")[..|name|] == name;
  }

  /** Only one trailing "_value" goes. */
  lemma StripRemovesOneSuffix(name: string)
    ensures StripValueSuffix(name + "_value_value") == name + "_value"
  {
    assert name + "_value_value" == (name + "_value") + "_value";
    StripUndoesValueSuffix(name + "_value");
  }

  /** The 'entity type' recorded in the Views data of `table`; NULL when the table is unknown. */
  function TableEntityType(views: ViewsData, table: string): Option<string> {
    if table in views then views[table].entityType else None
  }

  /**
   `naturalSortJoin`: join views_natural_sort on eid = <alias>.entity_id,
   with three extra conditions in this order: delta equal to the literal
   string "<alias>.delta" (a constant, not a column), entity_type equal to
   the entity type of the existing join's left table, and field equal to the
   handler's field without its "_value" suffix.
   */
  function NaturalSortJoin(h: NaturalFieldHandler, views: ViewsData): (c: JoinConfiguration)
    ensures c.table == "views_natural_sort" && c.field == "eid"
    ensures c.leftField == "entity_id" && c.leftTable == h.tableAlias
    ensures |c.extra| == 3
    ensures c.extra[0] == JoinCondition("delta", Some(h.tableAlias + ".delta"))
    ensures c.extra[1].field == "entity_type"
    ensures h.joinLeftTable in views ==> c.extra[1].value == views[h.joinLeftTable].entityType
    ensures h.joinLeftTable !in views ==> c.extra[1].value == None
    ensures c.extra[2].field == "field" && c.extra[2].value.Some?
    ensures EndsWith(h.field, "_value") ==> c.extra[2].value.value + "_value" == h.field
    ensures !EndsWith(h.field, "_value") && !EndsWith(h.field, "_value\n") ==> c.extra[2].value.value == h.field
  {
    JoinConfiguration(
      "views_natural_sort",
      "eid",
      "entity_id",
      h.tableAlias,
      [ JoinCondition("delta", Some(h.tableAlias + ".delta")),
        JoinCondition("entity_type", TableEntityType(views, h.joinLeftTable)),
        JoinCondition("field", Some(StripValueSuffix(h.field))) ])
  }
}

=== FILE: natural_sort.dfy ===
/**
 The "natural" Views sort handler. `init` switches natural mode on when the
 order option starts with 'N'; `query` defers to the parent sort outside
 natural mode and adds nothing in natural mode (its ordering code is
 commented out); `sortOptions` and `adminSummary` are modelled as written,
 next to the versions they evidently meant to be.
 */
module NaturalSort {
  import opened Php

  /** The handler's state: its 'order' option and its natural-mode flag. */
  datatype Natural = Natural(order: string, naturalSort: bool)

  /** What `query` does to the Views query. */
  datatype QueryEffect = ParentQuery | NoOrdering

  /** PHP `substr($s, 0, 1)`: the first character, or "" for "". */
  function FirstCharacter(s: string): string {
    if |s| == 0 then "" else s[..1]
  }

  function IsNaturalSort(h: Natural): bool {
    h.naturalSort
  }

  /** `setNaturalSort`: the flag becomes `value`; the options are kept. */
  function SetNaturalSort(h: Natural, value: bool): (r: Natural)
    ensures IsNaturalSort(r) == value
    ensures r.order == h.order
  {
    h.(naturalSort := value)
  }

  /** `init`: store the order option and switch natural mode on exactly when it starts with 'N'. */
  function Init(h: Natural, order: string): (r: Natural)
    ensures r.order == order
    ensures IsNaturalSort(r) <==> |order| > 0 && order[0] == 'N'
  {
    SetNaturalSort(h.(order := order), FirstCharacter(order) == "N")
  }

  /** `query`: outside natural mode the parent's query runs; in natural mode nothing is added. */
  function Query(h: Natural): (r: QueryEffect)
    ensures r == ParentQuery <==> !IsNaturalSort(h)
    ensures r == NoOrdering <==> IsNaturalSort(h)
  {
    if !IsNaturalSort(h) then ParentQuery else NoOrdering
  }

  /** After `init`, the parent sort runs exactly for the orders that do not start with 'N'. */
  lemma QueryAfterInit(h: Natural, order: string)
    ensures Query(Init(h, order)) == ParentQuery <==> !(|order| > 0 && order[0] == 'N')
    ensures Query(Init(h, "NASC")) == NoOrdering && Query(Init(h, "NDESC")) == NoOrdering
    ensures Query(Init(h, "ASC")) == ParentQuery && Query(Init(h, "DESC")) == ParentQuery
  {
    assert "NASC"[0] == 'N' && "NDESC"[0] == 'N';
    assert "ASC"[0] == 'A' && "DESC"[0] == 'D';
  }

  /** The last value passed to `setNaturalSort` is what `isNaturalSort` returns. */
  lemma LastSetNaturalSortWins(h: Natural, a: bool, b: bool)
    ensures IsNaturalSort(SetNaturalSort(SetNaturalSort(h, a), b)) == b
  {
  }

  /**
   `sortOptions` as written: it adds NASC and NDESC to a local copy of the
   parent's options (the map `SortOptions` returns) and then ends without a
   return statement, so the caller receives NULL (None).
   */
  function SortOptionsAsWritten(parent: map<string, string>): (r: Option<map<string, string>>)
    ensures r == None
  {
    None
  }

  /** `sortOptions` with the missing `return $options;`. */
  function SortOptions(parent: map<string, string>): (r: Option<map<string, string>>)
    ensures r.Some?
    ensures r.value.Keys == parent.Keys + {"NASC", "NDESC"}
    ensures r.value["NASC"] == "Sort ascending naturally" && r.value["NDESC"] == "Sort descending naturally"
    ensures forall k :: k in parent && k != "NASC" && k != "NDESC" ==> r.value[k] == parent[k]
  {
    Some(parent["NASC" := "Sort ascending naturally"]["NDESC" := "Sort descending naturally"])
  }

  /** Choosing either added option puts the handler in natural mode. */
  lemma AddedOptionsAreNatural(h: Natural, parent: map<string, string>, order: string)
    requires order in SortOptions(parent).value.Keys - parent.Keys
    ensures IsNaturalSort(Init(h, order))
  {
    assert order == "NASC" || order == "NDESC";
    assert "NASC"[0] == 'N' && "NDESC"[0] == 'N';
  }

  /** As written, no option reaches the form: the natural orders cannot be offered. */
  lemma SortOptionsAsWrittenOffersNothing(parent: map<string, string>)
    ensures SortOptionsAsWritten(parent).None?
    ensures "NASC" in SortOptions(parent).value && "NDESC" in SortOptions(parent).value
  {
  }

  /** `adminSummary` as written: both NASC and NDESC read 'natural asc'; other orders use the parent's label. */
  function AdminSummaryAsWritten(order: string, parentLabel: string): (r: string)
    ensures order == "NASC" || order == "NDESC" ==> r == "natural asc"
    ensures order != "NASC" && order != "NDESC" ==> r == parentLabel
  {
    match order
    case "NASC" => "natural asc"
    case "NDESC" => "natural asc"
    case _ => parentLabel
  }

  /** A descending natural sort is summarised as ascending. */
  lemma AdminSummaryAsWrittenHidesDirection(parentLabel: string)
    ensures AdminSummaryAsWritten("NDESC", parentLabel) == AdminSummaryAsWritten("NASC", parentLabel)
    ensures AdminSummaryAsWritten("NDESC", parentLabel) == "natural asc"
  {
  }

  /** `adminSummary` as evidently intended: NDESC reads 'natural desc'. */
  function AdminSummary(order: string, parentLabel: string): (r: string)
    ensures order == "NASC" ==> r == "natural asc"
    ensures order == "NDESC" ==> r == "natural desc"
    ensures order != "NASC" && order != "NDESC" ==> r == parentLabel
  {
    match order
    case "NASC" => "natural asc"
    case "NDESC" => "natural desc"
    case _ => parentLabel
  }

  /** The intended summary tells the two natural directions apart and differs from the written one only on NDESC. */
  lemma AdminSummaryTellsDirections(order: string, parentLabel: string)
    ensures AdminSummary("NASC", parentLabel) != AdminSummary("NDESC", parentLabel)
    ensures order != "NDESC" ==> AdminSummary(order, parentLabel) == AdminSummaryAsWritten(order, parentLabel)
  {
  }
}

=== FILE: php.dfy ===
/**
 Small pieces of PHP value semantics that the module's code relies on:
 the `Option` of a value that may be NULL, string truthiness as used by
 `empty()`, `if ($x)`, `?:` and `array_filter()`, and suffix tests on strings.
 */
module Php {

  /** A PHP value that may be NULL (None) or a present value (Some). */
  datatype Option<+T> = None | Some(value: T) {
    function GetOr(default: T): T {
      match this
      case Some(v) => v
      case None => default
    }
  }

  /** PHP truthiness of a string: exactly "" and "0" are falsy. */
  predicate Truthy(s: string) {
    s != "" && s != "0"
  }

  /** PHP `$a ?: $b` on strings. */
  function OrElse(a: string, b: string): string {
    if Truthy(a) then a else b
  }

  predicate EndsWith(s: string, suffix: string) {
    |suffix| <= |s| && s[|s| - |suffix|..] == suffix
  }
}

=== FILE: pipeline.dfy ===
/**
 The transformation pipeline that turns a raw field value into the string
 stored for sorting. A transformation is an opaque string rewrite (the
 concrete plugins are not part of this model); a list of them is applied
 serially, each receiving the previous one's output.
 */
module Pipeline {

  type Transformation = string -> string

  /** Apply `ts` left to right to `s`: a left fold. */
  function Run(ts: seq<Transformation>, s: string): string
    decreases |ts|
  {
    if |ts| == 0 then s else Run(ts[1..], ts[0](s))
  }

  /** Running a concatenated list is running the first part, then the second on its output. */
  lemma {:induction false} RunAppend(ts: seq<Transformation>, us: seq<Transformation>, s: string)
    ensures Run(ts + us, s) == Run(us, Run(ts, s))
    decreases |ts|
  {
    if |ts| == 0 {
      assert ts + us == us;
    } else {
      assert (ts + us)[0] == ts[0];
      assert (ts + us)[1..] == ts[1..] + us;
      RunAppend(ts[1..], us, ts[0](s));
    }
  }

  /** A transformation appended at the end sees the output of everything before it. */
  lemma RunSnoc(ts: seq<Transformation>, f: Transformation, s: string)
    ensures Run(ts + [f], s) == f(Run(ts, s))
  {
    RunAppend(ts, [f], s);
  }

  /**
   The i-th transformation receives exactly what the first i produced, and its
   output is what the first i + 1 produce.
   */
  lemma RunFeedsForward(ts: seq<Transformation>, s: string, i: nat)
    requires i < |ts|
    ensures Run(ts[..i + 1], s) == ts[i](Run(ts[..i], s))
  {
    assert ts[..i + 1] == ts[..i] + [ts[i]];
    RunSnoc(ts[..i], ts[i], s);
  }

  /** Derive the sort string by applying the transformations one after another. */
  method DeriveSortKey(ts: seq<Transformation>, raw: string) returns (key: string)
    ensures key == Run(ts, raw)
    ensures |ts| == 0 ==> key == raw
    ensures |ts| > 0 ==> key == ts[|ts| - 1](Run(ts[..|ts| - 1], raw))
  {
    key := raw;
    var i := 0;
    while i < |ts|
      invariant 0 <= i <= |ts|
      invariant key == Run(ts[..i], raw)
    {
      RunFeedsForward(ts, raw, i);
      key := ts[i](key);
      i := i + 1;
    }
    assert ts[..|ts|] == ts;
    if |ts| > 0 {
      RunFeedsForward(ts, raw, |ts| - 1);
    }
  }
}

=== FILE: properties.dfy ===
/**
 Discovery of the entity properties that can be naturally sorted. Both the
 service and the EntityProperty source plugin run the same discovery loop
 over the field map, differing only in how they find a field's Views base
 table and in how they pick the natural-sort columns; those two steps are
 parameters here. The method-level `static` caches of both classes are the
 explicit `Statics` value threaded through the calls.
 */
module Properties {
  import opened Php
  import opened Host

  /** Where a property lives in Views: its base table and schema field. */
  datatype SchemaInfo = SchemaInfo(baseTable: string, schemaField: string)

  /** entity type -> property name -> schema information */
  type PropertyMap = map<string, map<string, SchemaInfo>>

  /** The result of a Views-supported lookup: PHP FALSE when Views has no data. */
  datatype ViewsSupported = NoViewsData | Supported(properties: PropertyMap)

  /** The two `static` caches: supported and Views-supported properties. */
  datatype Statics = Statics(supported: PropertyMap, viewsSupported: PropertyMap)

  const EmptyStatics := Statics(map[], map[])

  /** How a class finds the Views base table of a field definition; None is PHP FALSE. */
  type TableOf = (Catalog, FieldDefinition) -> Option<string>

  /** How a class turns a supported property into a Views-supported one, or rejects it. */
  type Selector = (ViewsData, SchemaInfo) -> Option<SchemaInfo>

  /** `!empty($base_table)` */
  predicate HasTable(t: Option<string>) {
    t.Some? && Truthy(t.value)
  }

  /** The field map lists `field` of `entityType` with type 'string' or 'string_long'. */
  predicate IsStringField(cat: Catalog, entityType: string, field: string) {
    && entityType in cat.fieldMap
    && field in cat.fieldMap[entityType]
    && IsStringType(cat.fieldMap[entityType][field].fieldType)
  }

  /** The field map lists at least one string field for `entityType`. */
  predicate HasStringField(cat: Catalog, entityType: string)
    requires entityType in cat.fieldMap
  {
    exists f | f in cat.fieldMap[entityType] :: IsStringType(cat.fieldMap[entityType][f].fieldType)
  }

  /** The base table of a field, looked up through the definitions of its first bundle. */
  function FieldTable(cat: Catalog, tableOf: TableOf, entityType: string, field: string): Option<string>
    requires entityType in cat.fieldMap && field in cat.fieldMap[entityType]
  {
    var bundle := FirstBundle(cat.fieldMap[entityType][field].bundles);
    tableOf(cat, cat.fieldDefinition(entityType, bundle, field))
  }

  /**
   The supported properties: every string field that has a base table,
   recorded with that table and its own name as schema field. An entity
   type gets a key as soon as it has a string field, even when none of its
   fields has a base table.
   */
  function SupportedProperties(cat: Catalog, tableOf: TableOf): (r: PropertyMap)
    ensures forall e :: e in r <==> e in cat.fieldMap && HasStringField(cat, e)
    ensures forall e, f :: e in r && f in r[e] ==>
      && IsStringField(cat, e, f)
      && HasTable(FieldTable(cat, tableOf, e, f))
      && r[e][f].baseTable == FieldTable(cat, tableOf, e, f).value
      && r[e][f].schemaField == f
    ensures forall e, f :: IsStringField(cat, e, f) && HasTable(FieldTable(cat, tableOf, e, f)) ==>
      e in r && f in r[e]
  {
    map e | e in cat.fieldMap && HasStringField(cat, e) ::
      map f | f in cat.fieldMap[e] && IsStringType(cat.fieldMap[e][f].fieldType) && HasTable(FieldTable(cat, tableOf, e, f)) ::
        SchemaInfo(FieldTable(cat, tableOf, e, f).value, f)
  }

  /**
   The properties `select` accepts, with the schema information it returns.
   An entity type appears only when at least one of its properties is accepted.
   */
  function SelectProperties(supported: PropertyMap, views: ViewsData, select: Selector): (r: PropertyMap)
    ensures forall e, p :: (e in r && p in r[e]) <==>
      (e in supported && p in supported[e] && select(views, supported[e][p]).Some?)
    ensures forall e, p :: e in r && p in r[e] ==> r[e][p] == select(views, supported[e][p]).value
    ensures forall e :: e in r ==> r[e] != map[]
  {
    map e | e in supported && (exists p | p in supported[e] :: select(views, supported[e][p]).Some?) ::
      map p | p in supported[e] && select(views, supported[e][p]).Some? :: select(views, supported[e][p]).value
  }

  /**
   `getSupportedEntityProperties` with its static cache: computed only while
   the cached value is empty; the new cache is the returned value.
   */
  function CachedSupported(cat: Catalog, tableOf: TableOf, st: Statics): (r: (PropertyMap, Statics))
    ensures st.supported != map[] ==> r == (st.supported, st)
    ensures st.supported == map[] ==> r.0 == SupportedProperties(cat, tableOf)
    ensures r.1 == st.(supported := r.0)
  {
    if st.supported != map[] then (st.supported, st)
    else
      var computed := SupportedProperties(cat, tableOf);
      (computed, st.(supported := computed))
  }

  /**
   `getViewsSupportedEntityProperties` with its static cache. A non-empty
   cache is returned as it is. Otherwise the supported properties are fetched
   (through their own cache); empty Views data gives FALSE and leaves the
   cache empty; else the selected properties are returned and cached.
   */
  function CachedViewsSupported(cat: Catalog, tableOf: TableOf, views: ViewsData, select: Selector, st: Statics)
    : (r: (ViewsSupported, Statics))
    ensures st.viewsSupported != map[] ==> r == (Supported(st.viewsSupported), st)
    ensures st.viewsSupported == map[] && views == map[] ==> r.0 == NoViewsData && r.1.viewsSupported == map[]
    ensures st.viewsSupported == map[] && views != map[] ==>
      && r.0 == Supported(SelectProperties(r.1.supported, views, select))
      && r.1.viewsSupported == r.0.properties
    ensures r.1.supported == (if st.viewsSupported != map[] then st.supported else CachedSupported(cat, tableOf, st).0)
  {
    if st.viewsSupported != map[] then (Supported(st.viewsSupported), st)
    else
      var (supported, st1) := CachedSupported(cat, tableOf, st);
      if views == map[] then (NoViewsData, st1)
      else
        var selected := SelectProperties(supported, views, select);
        (Supported(selected), st1.(viewsSupported := selected))
  }

  /** Once a lookup has filled the cache, later lookups return it whatever the host now says. */
  lemma ViewsCacheIsSticky(cat: Catalog, cat': Catalog, tableOf: TableOf, views: ViewsData, views': ViewsData,
                           select: Selector, st: Statics)
    requires CachedViewsSupported(cat, tableOf, views, select, st).1.viewsSupported != map[]
    ensures var (first, st1) := CachedViewsSupported(cat, tableOf, views, select, st);
            CachedViewsSupported(cat', tableOf, views', select, st1) == (first, st1)
  {
  }

  /** A lookup that found nothing natural leaves the cache empty, so the next lookup recomputes. */
  lemma EmptyViewsResultIsRecomputed(cat: Catalog, tableOf: TableOf, views: ViewsData, views': ViewsData,
                                     select: Selector, st: Statics)
    requires views' != map[]
    requires CachedViewsSupported(cat, tableOf, views, select, st).1.viewsSupported == map[]
    ensures var st1 := CachedViewsSupported(cat, tableOf, views, select, st).1;
            CachedViewsSupported(cat, tableOf, views', select, st1).0
              == Supported(SelectProperties(st1.supported, views', select))
  {
  }
}

=== FILE: records.dfy ===
/**
 The values exchanged between the service and the host's hooks: an entry
 type, the values of one index record, and an index record ready to be
 saved (its values plus the transformation list attached to it).
 */
module Records {
  import opened Pipeline

  /** An (entity type, field) pair eligible for natural sorting. */
  datatype EntryType = EntryType(entityType: string, field: string)

  /**
   The values an index record is created from: entity id, entity type,
   field, delta (position of the value in the field) and the raw content.
   */
  datatype RecordValues = RecordValues(eid: string, entityType: string, field: string, delta: nat, content: string)

  /** An index record after `createIndexRecord`: its values and the transformations to run on them. */
  datatype IndexRecord = IndexRecord(values: RecordValues, transformations: seq<Transformation>)
}

=== FILE: seqs.dfy ===
/**
 Sequence operations behind PHP's list functions: `array_filter` (Filter),
 `array_unique` on a list (Unique, keeping the first occurrence of each value)
 and the order facts the callers need.
 */
module Seqs {

  /** Elements of `s` satisfying `p`, in their original order (`array_filter`). */
  function Filter<T(!new)>(p: T -> bool, s: seq<T>): (r: seq<T>)
    ensures |r| <= |s|
    ensures forall i :: 0 <= i < |r| ==> p(r[i])
    ensures forall x :: x in r <==> x in s && p(x)
    ensures forall x {:trigger multiset(r)[x]} :: multiset(r)[x] == (if p(x) then multiset(s)[x] else 0)
    decreases |s|
  {
    if |s| == 0 then []
    else
      assert s == [s[0]] + s[1..];
      (if p(s[0]) then [s[0]] else []) + Filter(p, s[1..])
  }

  lemma {:induction false} FilterAppend<T(!new)>(p: T -> bool, a: seq<T>, b: seq<T>)
    ensures Filter(p, a + b) == Filter(p, a) + Filter(p, b)
    decreases |a|
  {
    if |a| == 0 {
      assert a + b == b;
    } else {
      assert (a + b)[0] == a[0];
      assert (a + b)[1..] == a[1..] + b;
      FilterAppend(p, a[1..], b);
    }
  }

  lemma {:induction false} FilterKeepsAll<T(!new)>(p: T -> bool, s: seq<T>)
    requires forall i :: 0 <= i < |s| ==> p(s[i])
    ensures Filter(p, s) == s
    decreases |s|
  {
    if |s| > 0 {
      FilterKeepsAll(p, s[1..]);
      assert [s[0]] + s[1..] == s;
    }
  }

  /** `a` can be obtained from `b` by deleting elements, keeping order. */
  predicate IsSubsequence<T(==)>(a: seq<T>, b: seq<T>)
    decreases |b|
  {
    if |a| == 0 then true
    else if |b| == 0 then false
    else if a[0] == b[0] then IsSubsequence(a[1..], b[1..])
    else IsSubsequence(a, b[1..])
  }

  /** `array_filter` keeps the order of the elements it keeps. */
  lemma {:induction false} FilterIsSubsequence<T(!new)>(p: T -> bool, s: seq<T>)
    ensures IsSubsequence(Filter(p, s), s)
    decreases |s|
  {
    if |s| > 0 {
      FilterIsSubsequence(p, s[1..]);
      var r := Filter(p, s[1..]);
      if p(s[0]) {
        assert Filter(p, s) == [s[0]] + r;
        assert ([s[0]] + r)[1..] == r;
      } else {
        assert Filter(p, s) == r;
        SkipHead(r, s);
      }
    }
  }

  /** A subsequence of the tail is a subsequence of the whole. */
  lemma {:induction false} SkipHead<T>(a: seq<T>, b: seq<T>)
    requires |b| > 0
    requires IsSubsequence(a, b[1..])
    ensures IsSubsequence(a, b)
    decreases |b|, 1
  {
    if |a| > 0 && a[0] == b[0] {
      DropHead(a, b[1..]);
    }
  }

  /** Dropping the head of a subsequence keeps it a subsequence. */
  lemma {:induction false} DropHead<T>(a: seq<T>, c: seq<T>)
    requires |a| > 0
    requires IsSubsequence(a, c)
    ensures IsSubsequence(a[1..], c)
    decreases |c|, 2
  {
    if a[0] == c[0] {
      SkipHead(a[1..], c);
    } else {
      DropHead(a, c[1..]);
      SkipHead(a[1..], c);
    }
  }

  predicate NoDuplicates<T(==)>(s: seq<T>) {
    forall i, j :: 0 <= i < j < |s| ==> s[i] != s[j]
  }

  /** Position of the first occurrence of `x` in `s`. */
  function IndexOf<T(==)>(s: seq<T>, x: T): (i: nat)
    requires x in s
    ensures i < |s| && s[i] == x
    ensures forall k :: 0 <= k < i ==> s[k] != x
    decreases |s|
  {
    if s[0] == x then 0 else 1 + IndexOf(s[1..], x)
  }

  lemma {:induction false} IndexOfPrefix<T>(a: seq<T>, b: seq<T>, x: T)
    requires x in a
    ensures IndexOf(a + b, x) == IndexOf(a, x)
    decreases |a|
  {
    if a[0] != x {
      assert (a + b)[1..] == a[1..] + b;
      IndexOfPrefix(a[1..], b, x);
    }
  }

  lemma {:induction false} IndexOfLast<T>(a: seq<T>, x: T)
    requires x !in a
    ensures IndexOf(a + [x], x) == |a|
    decreases |a|
  {
    if |a| > 0 {
      assert (a + [x])[1..] == a[1..] + [x];
      IndexOfLast(a[1..], x);
    }
  }

  /**
   `array_unique` on a list: the first occurrence of every value, in the
   order of first appearance.
   */
  function Unique<T(==,!new)>(s: seq<T>): (u: seq<T>)
    ensures forall x :: x in u <==> x in s
    ensures NoDuplicates(u)
    decreases |s|
  {
    if |s| == 0 then []
    else
      var init := s[..|s| - 1];
      var last := s[|s| - 1];
      assert s == init + [last];
      var u := Unique(init);
      if last in u then u else u + [last]
  }

  /** The elements Unique keeps appear in the order of their first occurrence. */
  lemma {:induction false} UniqueKeepsFirstSeenOrder<T(!new)>(s: seq<T>)
    ensures forall i, j :: 0 <= i < j < |Unique(s)| ==>
      IndexOf(s, Unique(s)[i]) < IndexOf(s, Unique(s)[j])
    decreases |s|
  {
    if |s| > 0 {
      var init := s[..|s| - 1];
      var last := s[|s| - 1];
      assert s == init + [last];
      var u := Unique(init);
      UniqueKeepsFirstSeenOrder(init);
      forall y | y in init
        ensures IndexOf(s, y) == IndexOf(init, y)
      {
        IndexOfPrefix(init, [last], y);
      }
      if last !in u {
        IndexOfLast(init, last);
        var w := Unique(s);
        assert w == u + [last];
        forall i, j | 0 <= i < j < |w|
          ensures IndexOf(s, w[i]) < IndexOf(s, w[j])
        {
          assert w[i] == u[i] && w[i] in init;
          if j < |u| {
            assert w[j] == u[j] && w[j] in init;
          } else {
            assert w[j] == last;
          }
        }
      }
    }
  }

  lemma {:induction false} UniqueOfDistinct<T(!new)>(s: seq<T>)
    requires NoDuplicates(s)
    ensures Unique(s) == s
    decreases |s|
  {
    if |s| > 0 {
      var init := s[..|s| - 1];
      var last := s[|s| - 1];
      assert s == init + [last];
      assert forall k :: 0 <= k < |init| ==> init[k] == s[k] != last;
      UniqueOfDistinct(init);
    }
  }

  /** Deduplicating an accumulated prefix first changes nothing. */
  lemma {:induction false} UniqueAbsorbsPrefix<T(!new)>(a: seq<T>, b: seq<T>)
    ensures Unique(Unique(a) + b) == Unique(a + b)
    decreases |b|
  {
    if |b| == 0 {
      assert Unique(a) + b == Unique(a);
      assert a + b == a;
      UniqueOfDistinct(Unique(a));
    } else {
      var init := b[..|b| - 1];
      var last := b[|b| - 1];
      UniqueAbsorbsPrefix(a, init);
      var l := Unique(a) + b;
      var r := a + b;
      assert l[..|l| - 1] == Unique(a) + init && l[|l| - 1] == last;
      assert r[..|r| - 1] == a + init && r[|r| - 1] == last;
    }
  }
}

=== FILE: service.dfy ===
/**
 ViewsNaturalSortService: assembles the transformation list for an index
 record, discovers the naturally sortable entity properties, fans an entity
 out into index records, and merges rebuild queues into batch operations.
 The host's services (configuration, plugin managers, hooks, field and
 entity type managers, Views data) are the fields of `Environment`.
 */
module Service {
  import opened Php
  import opened Seqs
  import opened Pipeline
  import opened Records
  import opened Host
  import opened Properties

  /** The built-in transformation plugin ids, in the order they run. */
  const DefaultTransformationIds: seq<string> :=
    ["remove_beginning_words", "remove_words", "remove_symbols", "numbers", "days_of_the_week"]

  /** The settings sub-record `transformation_settings.<id>` of `views_natural_sort.settings`. */
  datatype TransformationSettings = TransformationSettings(enabled: bool, options: map<string, seq<string>>)

  /** Transformation plugin id -> its settings sub-record; a missing id reads as NULL. */
  type Config = map<string, TransformationSettings>

  /**
   The host services the service calls:
   - `createInstance`: the transformation plugin manager building a plugin from its id and settings;
   - `alterTransformations`: the `views_natural_sort_transformations` alter hooks, given the list and the record;
   - `entryTypesHook`: what `invokeAll('views_natural_sort_get_entry_types')` returns;
   - `queueRebuildDataHook`: what `invokeAll('views_natural_sort_queue_rebuild_data', $entry_type)` returns.
   */
  datatype Environment = Environment(
    config: Config,
    createInstance: (string, TransformationSettings) -> Transformation,
    alterTransformations: (seq<Transformation>, RecordValues) -> seq<Transformation>,
    catalog: Catalog,
    views: ViewsData,
    entryTypesHook: seq<EntryType>,
    queueRebuildDataHook: EntryType -> seq<string>)

  // ---------------------------------------------------------------------------
  // Transformations

  /** `$config->get('transformation_settings.<id>.enabled')` is truthy. */
  predicate IsEnabled(config: Config, id: string) {
    id in config && config[id].enabled
  }

  function EnabledFilter(config: Config): string -> bool {
    id => IsEnabled(config, id)
  }

  /** The ids of the enabled built-in transformations, in their fixed order. */
  function EnabledIds(config: Config): (ids: seq<string>)
    ensures forall id :: id in ids <==> id in DefaultTransformationIds && IsEnabled(config, id)
    ensures IsSubsequence(ids, DefaultTransformationIds)
  {
    FilterIsSubsequence(EnabledFilter(config), DefaultTransformationIds);
    Filter(EnabledFilter(config), DefaultTransformationIds)
  }

  /** `getDefaultTransformations`: one plugin per enabled id, each built from its own settings. */
  function DefaultTransformations(env: Environment): (ts: seq<Transformation>)
    ensures |ts| == |EnabledIds(env.config)|
    ensures forall i :: 0 <= i < |ts| ==>
      var id := EnabledIds(env.config)[i];
      id in env.config && ts[i] == env.createInstance(id, env.config[id])
  {
    var ids := EnabledIds(env.config);
    seq(|ids|, i requires 0 <= i < |ids| => env.createInstance(ids[i], env.config[ids[i]]))
  }

  /** With every built-in transformation enabled, all five run, in the fixed order. */
  lemma AllEnabledRunsAllFive(env: Environment)
    requires forall id :: id in DefaultTransformationIds ==> IsEnabled(env.config, id)
    ensures EnabledIds(env.config) == DefaultTransformationIds
    ensures |DefaultTransformations(env)| == 5
  {
    FilterKeepsAll(EnabledFilter(env.config), DefaultTransformationIds);
  }

  /** `getTransformations`: the alter hooks receive the fully assembled default list. */
  function GetTransformations(env: Environment, record: RecordValues): (ts: seq<Transformation>)
    ensures ts == env.alterTransformations(DefaultTransformations(env), record)
  {
    env.alterTransformations(DefaultTransformations(env), record)
  }

  /**
   Without alteration, a record's transformations are the enabled built-ins
   in their fixed order, and the i-th of them, built from its own settings,
   receives what the ones before it produced.
   */
  lemma UnalteredTransformationsRunInOrder(env: Environment, record: RecordValues, s: string, i: nat)
    requires forall ts, values :: env.alterTransformations(ts, values) == ts
    requires i < |EnabledIds(env.config)|
    ensures var ts := GetTransformations(env, record);
      var id := EnabledIds(env.config)[i];
      && |ts| == |EnabledIds(env.config)|
      && id in env.config
      && Run(ts[..i + 1], s) == env.createInstance(id, env.config[id])(Run(ts[..i], s))
  {
    var ts := GetTransformations(env, record);
    assert ts == DefaultTransformations(env);
    RunFeedsForward(ts, s, i);
  }

  /** `createIndexRecord`: a record with the given values and exactly the altered transformation list. */
  function CreateIndexRecord(env: Environment, values: RecordValues): (r: IndexRecord)
    ensures r.values == values
    ensures r.transformations == env.alterTransformations(DefaultTransformations(env), values)
  {
    IndexRecord(values, GetTransformations(env, values))
  }

  // ---------------------------------------------------------------------------
  // Views base tables and supported properties

  /**
   `getViewsBaseTable`. A configurable field maps to "<entity type>__<field>"
   unless its field type has no plugin, its storage has no bundles, it uses
   custom storage, its entity type has no SQL storage, or its entity type has
   no base table (PHP FALSE, here None). A base field maps to the entity
   type's data or base table.
   */
  function GetViewsBaseTable(cat: Catalog, fd: FieldDefinition): (r: Option<string>)
    ensures fd.ConfigField? ==>
      (r.Some? <==>
        && fd.storage.fieldType in cat.fieldTypes
        && |fd.storage.bundles| > 0
        && !fd.storage.customStorage
        && fd.storage.sqlEntityStorage
        && Truthy(cat.entityType(fd.targetEntityTypeId).baseTable))
    ensures fd.ConfigField? && r.Some? ==> r.value == fd.storage.targetEntityTypeId + "__" + fd.storage.name
    ensures fd.BaseField? ==> r == Some(BaseFieldTable(cat.entityType(fd.targetEntityTypeId)))
  {
    var entityType := cat.entityType(fd.targetEntityTypeId);
    match fd
    case ConfigField(_, storage) =>
      if storage.fieldType !in cat.fieldTypes then None
      else if |storage.bundles| == 0 then None
      else if storage.customStorage then None
      else if !storage.sqlEntityStorage then None
      else if !Truthy(entityType.baseTable) then None
      else Some(storage.targetEntityTypeId + "__" + storage.name)
    case BaseField(_) =>
      Some(BaseFieldTable(entityType))
  }

  /** A configurable field's table name ends with its own field name after a double underscore. */
  lemma ConfigFieldTableNamesTheField(cat: Catalog, fd: FieldDefinition)
    requires fd.ConfigField?
    requires GetViewsBaseTable(cat, fd).Some?
    ensures EndsWith(GetViewsBaseTable(cat, fd).value, "__" + fd.storage.name)
  {
    var t := GetViewsBaseTable(cat, fd).value;
    assert t == fd.storage.targetEntityTypeId + ("__" + fd.storage.name);
  }

  /** `getSupportedEntityProperties` with its static cache. */
  function GetSupportedEntityProperties(env: Environment, st: Statics): (r: (PropertyMap, Statics))
    ensures st.supported != map[] ==> r.0 == st.supported
    ensures st.supported == map[] ==>
      forall e, f :: e in r.0 && f in r.0[e] ==>
        && IsStringField(env.catalog, e, f)
        && r.0[e][f].schemaField == f
        && HasTable(FieldTable(env.catalog, GetViewsBaseTable, e, f))
        && r.0[e][f].baseTable == FieldTable(env.catalog, GetViewsBaseTable, e, f).value
    ensures st.supported == map[] ==>
      forall e, f :: IsStringField(env.catalog, e, f) && HasTable(FieldTable(env.catalog, GetViewsBaseTable, e, f)) ==>
        e in r.0 && f in r.0[e]
    ensures st.supported == map[] ==>
      forall e :: e in r.0 <==> e in env.catalog.fieldMap && HasStringField(env.catalog, e)
    ensures r.1.supported == r.0 && r.1.viewsSupported == st.viewsSupported
  {
    var r := CachedSupported(env.catalog, GetViewsBaseTable, st);
    assert st.supported == map[] ==> r.0 == SupportedProperties(env.catalog, GetViewsBaseTable);
    r
  }

  /**
   The service's Views check for one property: Views must declare the column;
   if the column names a "real field", that field replaces the schema field,
   and it is the replacement whose sort handler must be 'natural'.
   */
  function NaturalWithRealField(views: ViewsData, info: SchemaInfo): (r: Option<SchemaInfo>)
    ensures r.Some? ==> r.value.baseTable == info.baseTable
    ensures r.Some? ==> IsNaturalColumn(views, info.baseTable, r.value.schemaField)
    ensures r.Some? ==> Column(views, info.baseTable, info.schemaField).Some?
    ensures Column(views, info.baseTable, info.schemaField).Some? ==>
      var column := Column(views, info.baseTable, info.schemaField).value;
      var resolved := column.realField.GetOr(info.schemaField);
      (r.Some? <==> IsNaturalColumn(views, info.baseTable, resolved))
      && (r.Some? ==> r.value.schemaField == resolved)
  {
    match Column(views, info.baseTable, info.schemaField)
    case None => None
    case Some(column) =>
      var schemaField := if column.realField.Some? then column.realField.value else info.schemaField;
      if IsNaturalColumn(views, info.baseTable, schemaField) then Some(SchemaInfo(info.baseTable, schemaField))
      else None
  }

  /**
   `getViewsSupportedEntityProperties` with its static cache: FALSE on empty
   Views data, otherwise the supported properties whose (possibly
   real-field-rewritten) column sorts naturally.
   */
  function GetViewsSupportedEntityProperties(env: Environment, st: Statics): (r: (ViewsSupported, Statics))
    ensures st.viewsSupported != map[] ==> r == (Supported(st.viewsSupported), st)
    ensures st.viewsSupported == map[] ==> r.1.supported == GetSupportedEntityProperties(env, st).0
    ensures st.viewsSupported == map[] && env.views == map[] ==> r.0 == NoViewsData && r.1.viewsSupported == map[]
    ensures st.viewsSupported == map[] && env.views != map[] ==>
      && r.0.Supported?
      && r.1.viewsSupported == r.0.properties
      && (forall e, p :: (e in r.0.properties && p in r.0.properties[e]) <==>
            (e in r.1.supported && p in r.1.supported[e] && NaturalWithRealField(env.views, r.1.supported[e][p]).Some?))
      && (forall e, p :: e in r.0.properties && p in r.0.properties[e] ==>
            var info := r.1.supported[e][p];
            && r.0.properties[e][p].baseTable == info.baseTable
            && Column(env.views, info.baseTable, info.schemaField).Some?
            && r.0.properties[e][p].schemaField
                 == Column(env.views, info.baseTable, info.schemaField).value.realField.GetOr(info.schemaField)
            && IsNaturalColumn(env.views, info.baseTable, r.0.properties[e][p].schemaField))
      && (forall e :: e in r.0.properties ==> r.0.properties[e] != map[])
  {
    CachedViewsSupported(env.catalog, GetViewsBaseTable, env.views, NaturalWithRealField, st)
  }

  // ---------------------------------------------------------------------------
  // Live indexing

  /** One value of one field of an entity: the field name and the value's delta. */
  datatype Occurrence = Occurrence(field: string, delta: nat)

  /** The Views-supported properties of `entityTypeId`; none when the lookup gave FALSE or lacks the type. */
  function PropertiesOf(vs: ViewsSupported, entityTypeId: string): map<string, SchemaInfo> {
    if vs.Supported? && entityTypeId in vs.properties then vs.properties[entityTypeId] else map[]
  }

  /** The entity has a value at `o` and `o.field` is one of `props`. */
  predicate IsIndexed(props: map<string, SchemaInfo>, entity: Entity, o: Occurrence) {
    o.field in props && o.field in entity.fields && o.delta < |entity.fields[o.field]|
  }

  /** Every (field, delta) the entity has a value at, among the fields in `props`. */
  function Occurrences(props: map<string, SchemaInfo>, entity: Entity): (occ: set<Occurrence>)
    ensures forall o :: o in occ <==> IsIndexed(props, entity, o)
  {
    var occ := set f, d | f in props && f in entity.fields && 0 <= d < |entity.fields[f]| :: Occurrence(f, d);
    assert forall o :: IsIndexed(props, entity, o) ==> o == Occurrence(o.field, o.delta) && o in occ;
    occ
  }

  /** The record values of the entity's value at `o`: `value['value']` becomes the content. */
  function ValuesAt(entity: Entity, o: Occurrence): RecordValues
    requires o.field in entity.fields && o.delta < |entity.fields[o.field]|
  {
    RecordValues(entity.id, entity.entityTypeId, o.field, o.delta, entity.fields[o.field][o.delta].value)
  }

  /**
   `storeIndexRecordsFromEntity`: one index record per value (delta) of each
   Views-supported property that the entity has set, carrying the entity's id
   and type, the field, the delta and the value as content. The records are
   keyed by (field, delta); saving them is left to the host.
   */
  function StoreIndexRecordsFromEntity(env: Environment, st: Statics, entity: Entity)
    : (r: (map<Occurrence, IndexRecord>, Statics))
    ensures r.1 == GetViewsSupportedEntityProperties(env, st).1
    ensures forall o :: o in r.0 <==>
      IsIndexed(PropertiesOf(GetViewsSupportedEntityProperties(env, st).0, entity.entityTypeId), entity, o)
    ensures forall o :: o in r.0 ==>
      && o.field in entity.fields && o.delta < |entity.fields[o.field]|
      && r.0[o].values == RecordValues(entity.id, entity.entityTypeId, o.field, o.delta, entity.fields[o.field][o.delta].value)
      && r.0[o].transformations == GetTransformations(env, r.0[o].values)
  {
    var (vs, st') := GetViewsSupportedEntityProperties(env, st);
    var occ := Occurrences(PropertiesOf(vs, entity.entityTypeId), entity);
    (map o | o in occ :: CreateIndexRecord(env, ValuesAt(entity, o)), st')
  }

  /** Without Views data, or for an entity type with no natural property, nothing is indexed. */
  lemma NothingIndexedWithoutSupport(env: Environment, st: Statics, entity: Entity)
    requires PropertiesOf(GetViewsSupportedEntityProperties(env, st).0, entity.entityTypeId) == map[]
    ensures StoreIndexRecordsFromEntity(env, st, entity).0 == map[]
  {
    var saved := StoreIndexRecordsFromEntity(env, st, entity).0;
    assert forall o :: o !in saved;
    assert saved.Keys == {};
  }

  // ---------------------------------------------------------------------------
  // Rebuild queues

  /** A batch operation: `rebuildIndex` on one named queue. */
  datatype Operation = RebuildIndex(queue: string)

  /** Every queue name the rebuild-data hook returns for `ets`, in order, unfiltered. */
  function RequestedQueues(ets: seq<EntryType>, hook: EntryType -> seq<string>): seq<string>
    decreases |ets|
  {
    if |ets| == 0 then [] else hook(ets[0]) + RequestedQueues(ets[1..], hook)
  }

  /**
   The loop of `queueDataForRebuild`: for each entry type,
   `$queues = array_unique(array_merge($queues, array_filter(<hook result>)))`.
   */
  function MergeQueues(queues: seq<string>, ets: seq<EntryType>, hook: EntryType -> seq<string>): seq<string>
    decreases |ets|
  {
    if |ets| == 0 then queues
    else MergeQueues(Unique(queues + Filter(Truthy, hook(ets[0]))), ets[1..], hook)
  }

  /** Merging step by step equals deduplicating all truthy requested names at once. */
  lemma {:induction false} MergeQueuesDeduplicatesAllRequests(queues: seq<string>, ets: seq<EntryType>,
                                                              hook: EntryType -> seq<string>)
    ensures MergeQueues(Unique(queues), ets, hook) == Unique(queues + Filter(Truthy, RequestedQueues(ets, hook)))
    decreases |ets|
  {
    if |ets| == 0 {
      assert RequestedQueues(ets, hook) == [];
      assert queues + Filter(Truthy, []) == queues;
    } else {
      var first := Filter(Truthy, hook(ets[0]));
      var rest := Filter(Truthy, RequestedQueues(ets[1..], hook));
      calc {
        MergeQueues(Unique(queues), ets, hook);
        MergeQueues(Unique(Unique(queues) + first), ets[1..], hook);
        { UniqueAbsorbsPrefix(queues, first); }
        MergeQueues(Unique(queues + first), ets[1..], hook);
        { MergeQueuesDeduplicatesAllRequests(queues + first, ets[1..], hook); }
        Unique(queues + first + rest);
        { assert queues + first + rest == queues + (first + rest);
          FilterAppend(Truthy, hook(ets[0]), RequestedQueues(ets[1..], hook)); }
        Unique(queues + Filter(Truthy, RequestedQueues(ets, hook)));
      }
    }
  }

  /** The entry types a rebuild covers: the given ones, or the hook's when none are given. */
  function EffectiveEntryTypes(env: Environment, entryTypes: seq<EntryType>): seq<EntryType> {
    if |entryTypes| == 0 then env.entryTypesHook else entryTypes
  }

  /** One rebuildIndex operation per queue, in the queues' order. */
  function Operations(queues: seq<string>): (ops: seq<Operation>)
    ensures |ops| == |queues|
    ensures forall i :: 0 <= i < |ops| ==> ops[i].queue == queues[i]
  {
    seq(|queues|, i requires 0 <= i < |queues| => RebuildIndex(queues[i]))
  }

  /** Operations built from a deduplicated request list name only truthy, requested queues. */
  lemma OperationsNameOnlyRequested(requested: seq<string>, ops: seq<Operation>)
    requires forall i :: 0 <= i < |requested| ==> Truthy(requested[i])
    requires ops == Operations(Unique(requested))
    ensures forall i :: 0 <= i < |ops| ==> Truthy(ops[i].queue) && ops[i].queue in requested
  {
    var queues := Unique(requested);
    forall i | 0 <= i < |ops|
      ensures Truthy(ops[i].queue) && ops[i].queue in requested
    {
      assert ops[i].queue == queues[i] && queues[i] in queues;
      var k := IndexOf(requested, queues[i]);
    }
  }

  /** Every requested queue has an operation. */
  lemma OperationsNameEveryRequest(requested: seq<string>, ops: seq<Operation>)
    requires ops == Operations(Unique(requested))
    ensures forall q :: q in requested ==> exists i :: 0 <= i < |ops| && ops[i].queue == q
  {
    var queues := Unique(requested);
    forall q | q in requested
      ensures exists i :: 0 <= i < |ops| && ops[i].queue == q
    {
      var i := IndexOf(queues, q);
      assert ops[i].queue == q;
    }
  }

  /** No queue has two operations. */
  lemma OperationsAreDistinct(requested: seq<string>, ops: seq<Operation>)
    requires ops == Operations(Unique(requested))
    ensures forall i, j :: 0 <= i < j < |ops| ==> ops[i].queue != ops[j].queue
  {
  }

  /** The operations follow the order in which their queues were first requested. */
  lemma OperationsFollowFirstRequest(requested: seq<string>, ops: seq<Operation>)
    requires ops == Operations(Unique(requested))
    ensures forall i, j :: 0 <= i < j < |ops| ==> IndexOf(requested, ops[i].queue) < IndexOf(requested, ops[j].queue)
  {
    UniqueKeepsFirstSeenOrder(requested);
  }

  /**
   `queueDataForRebuild` up to the batch it hands to the host: one
   rebuildIndex operation per queue, where the queues are the truthy names
   the rebuild-data hook returned, without duplicates, in the order each
   first appeared.
   */
  function QueueDataForRebuild(env: Environment, entryTypes: seq<EntryType>): (ops: seq<Operation>)
    ensures var requested := Filter(Truthy, RequestedQueues(EffectiveEntryTypes(env, entryTypes), env.queueRebuildDataHook));
      && (forall i :: 0 <= i < |ops| ==> Truthy(ops[i].queue) && ops[i].queue in requested)
      && (forall q :: q in requested ==> exists i :: 0 <= i < |ops| && ops[i].queue == q)
      && (forall i, j :: 0 <= i < j < |ops| ==> ops[i].queue != ops[j].queue)
      && (forall i, j :: 0 <= i < j < |ops| ==> IndexOf(requested, ops[i].queue) < IndexOf(requested, ops[j].queue))
  {
    var ets := EffectiveEntryTypes(env, entryTypes);
    var requested := Filter(Truthy, RequestedQueues(ets, env.queueRebuildDataHook));
    var queues := MergeQueues([], ets, env.queueRebuildDataHook);
    assert Unique<string>([]) == [];
    MergeQueuesDeduplicatesAllRequests([], ets, env.queueRebuildDataHook);
    assert [] + requested == requested;
    OperationsNameOnlyRequested(requested, Operations(queues));
    OperationsNameEveryRequest(requested, Operations(queues));
    OperationsAreDistinct(requested, Operations(queues));
    OperationsFollowFirstRequest(requested, Operations(queues));
    Operations(queues)
  }
}
